=== FILE: README.md ===
# CloseableChain and friends, in Dafny

A model of the resource-handling core of `org.msyu.javautil.exceptions`:

- **`CloseableChain`**: an immutable linked list of resources. Each `chain` or `chainEffects` call runs a constructor on the current output. On success it puts a new link on top. On failure it releases, tail first, every link below that has both an output and a destructor, adds the destructors' failures to the constructor's throwable as suppressed exceptions, and rethrows that throwable.
  - `close(chain, suppressor)` walks the list from tail to root and runs the destructor of every link that has both an output and a destructor. It adds each failure to the suppressor.
  - `close(chain)` does the same walk. It throws the first failure, with every later one suppressed.
- **The exhaustive test of `CloseableChainTest`**: an oracle that predicts, for every pattern of throwing constructors and destructors, what the chain ends with. It is proved here to agree with the chain model on every pattern, at every level, not only at the levels 0 to 3 the data provider uses.
- **`AutoCloseableWrapper`**: a closeable that runs an optional action on close.
- **`ParameterizedAutoCloseable.wrap`**: a closeable that applies a destructor to a fixed object, optionally after applying a constructor to that object eagerly.

## How the Java is represented

- A Java reference that may be null is an `Option`.
- A callback is a total Dafny function that returns what it would do: a value (`Success`/`Pass`) or a throwable (`Failure`/`Fail`).
- A call through a null callback produces a `NullPointerException` throwable without a message (`Throwables.NullPointerException`). The null check `Objects.requireNonNull(suppressor, "suppressor is null")` in `close(chain, suppressor)` produces a `NullPointerException` carrying that message (`Throwables.RequireNonNullException`, cause `NullCheck`). The model returns it in the result variant `SuppressorIsNull`.
- Java mutates a throwable's suppressed list in place. The model returns the updated throwable (`Throwables.AddSuppressed`).
- A link is identified by its index: the root made by `newCloseableChain` is 0, the n-th chained link is n.
- Each operation on a chain also returns the callback calls it made (`Construct(n)`, `Destruct(n)`). The order properties are stated on these.

The teardown loops are modelled twice:

- as a recursive walk (`CloseableChains.Walk`) that the contracts use;
- as the Java `while` loops (`CloseIntoLoop`, `SuppressLoop`, `CloseLoop`), proved equal to the walk.

`newCloseableChain` (`CloseableChain.java` lines 7-9) is the only place that deliberately creates a link with no output and no destructor: the root. Links that lack an output or a destructor also occur further up the chain. `chain` with a constructor that returns null makes a link without an output (line 39), and so does `chainEffects` on the root, whose output is null (line 53). A null destructor makes a link without a destructor. Both teardown loops skip any link whose output or destructor is null (lines 70 and 85). The model follows them (`CloseableChains.Releasable`).

In the test, a shared counter numbers the dummies. Constructors increment it and closes decrement it. Links are created root first and closed tail first, so at every call the counter equals the index of the dummy being called. The model's dummies carry that index directly. The index is their level in `DummyConstructor` and `DummyClose`, which model `Dummy` in `CloseableChainTestBase.java` lines 30-54.

## Model

| member | source | states |
|---|---|---|
| Throwables.AddAllSuppressed | src/main/java/org/msyu/javautil/exceptions/CloseableChain.java:69-78 | Adding throwables one by one keeps the suppressor's identity, keeps what it already suppressed, and appends the new ones in order. |
| CloseableChains.NewCloseableChain | src/main/java/org/msyu/javautil/exceptions/CloseableChain.java:7-9 | The new chain is a lone root with no output and no destructor, and closing it releases nothing. |
| CloseableChains.Extend | src/main/java/org/msyu/javautil/exceptions/CloseableChain.java:39-53 | The link `chain` or `chainEffects` creates sits directly on the old chain, one level up, and exposes the given output. It is released on close exactly when it has both an output and a destructor. |
| CloseableChains.ChainStep | src/main/java/org/msyu/javautil/exceptions/CloseableChain.java:27-40 | `chain` succeeds exactly when the constructor exists and returns. On success, the constructor ran once on the current output and the new link holds its result and the destructor on top of the old chain. On failure, the thrown throwable (or a NullPointerException for a null constructor) is rethrown, with every release failure of the old chain suppressed in walk order, and the calls are the constructor's followed by the old chain's releases. |
| CloseableChains.ChainEffects | src/main/java/org/msyu/javautil/exceptions/CloseableChain.java:42-54 | The same as for `chain`, except that the new link keeps the current output. |
| CloseableChains.Rollback | src/main/java/org/msyu/javautil/exceptions/CloseableChain.java:35-37 | The catch block always rethrows. The rethrown throwable keeps its identity, keeps what it already suppressed, and gains the chain's release failures. The calls are the chain's releases. |
| CloseableChains.CloseInto | src/main/java/org/msyu/javautil/exceptions/CloseableChain.java:64-79 | A null suppressor is rejected before any destructor runs: the result is `SuppressorIsNull` holding the NullPointerException with message "suppressor is null" that `Objects.requireNonNull` throws (line 68), which is distinct from the exception of a call through null. Otherwise every releasable link is released and each failure is appended to the suppressor, after what it already held. |
| CloseableChains.Close | src/main/java/org/msyu/javautil/exceptions/CloseableChain.java:81-101 | Every releasable link is released, whatever fails. Nothing is thrown exactly when no release fails. Otherwise the first failure is thrown, with the later ones appended to its suppressed list. |
| CloseableChains.Walk | src/main/java/org/msyu/javautil/exceptions/CloseableChain.java:69-97 | The walk from a null chain releases nothing. From a link, it makes at most Depth + 1 releases, one for each link between that link and the root; `WalkDescends` proves their indices fall strictly, starting no higher than the link's own. |
| CloseableChains.CloseIntoLoop | src/main/java/org/msyu/javautil/exceptions/CloseableChain.java:67-79 | The Java method (null check, then the loop) computes `CloseInto`. |
| CloseableChains.SuppressLoop | src/main/java/org/msyu/javautil/exceptions/CloseableChain.java:69-78 | The `while (chain != null)` loop releases the links of the walk in walk order and appends their failures to the suppressor. |
| CloseableChains.CloseLoop | src/main/java/org/msyu/javautil/exceptions/CloseableChain.java:82-100 | The Java loop, with its `throwable == null` test, computes `Close`. |
| CloseableChains.RecordAll | src/main/java/org/msyu/javautil/exceptions/CloseableChain.java:82-97 | The `throwable` variable stays null only while it is null and no failure has been met. Once set, it keeps the first failure's identity. |
| CloseableChains.RecordAllAfterFirst | src/main/java/org/msyu/javautil/exceptions/CloseableChain.java:89-93 | Once a first throwable is recorded, each later failure is added to its suppressed list. |
| CloseableChains.RecordAllFromNull | src/main/java/org/msyu/javautil/exceptions/CloseableChain.java:82-97 | Starting from null, the loop's bookkeeping yields nothing for no failures, and otherwise the first failure with the rest suppressed. |
| CloseableChains.RecordStep | src/main/java/org/msyu/javautil/exceptions/CloseableChain.java:85-96 | One iteration of the loop body on a link, against one step of the walk. |
| CloseableChains.WalkStep | src/main/java/org/msyu/javautil/exceptions/CloseableChain.java:69-78 | The walk from a link is that link's release, if it is releasable, followed by the walk from its predecessor. |
| CloseableChains.WalkDescends | src/main/java/org/msyu/javautil/exceptions/CloseableChain.java:84-97 | The walk releases links with strictly decreasing indices, none above the tail. |
| CloseableChains.WalkRecordsOutcomes | src/main/java/org/msyu/javautil/exceptions/CloseableChain.java:85-88 | Every released link has an output and a destructor, and its recorded outcome is its own destructor applied to its own output. |
| CloseableChains.WalkCoversReleasable | src/main/java/org/msyu/javautil/exceptions/CloseableChain.java:84-97 | A link of the chain is released if and only if it has both an output and a destructor. |
| CloseableChains.WalkReleasesEachLinkOnceTailFirst | src/main/java/org/msyu/javautil/exceptions/CloseableChain.java:64-101 | Both teardowns release exactly the releasable links, each once, tail first, each with its own destructor on its own output. |
| CloseableChains.RootIsNeverReleased | src/main/java/org/msyu/javautil/exceptions/CloseableChain.java:7-9 | On a chain grown from `newCloseableChain`, the root is never passed to a destructor. |
| CloseableChains.RootedAncestor | src/main/java/org/msyu/javautil/exceptions/CloseableChain.java:7-9 | The root of such a chain is not releasable. |
| CloseableChains.ExtendKeepsEarlierLinks | src/main/java/org/msyu/javautil/exceptions/CloseableChain.java:39 | A new link raises the depth by one, exposes its own output, and leaves every earlier link and the root as they were. |
| CloseableChains.EmptyChainClosesSilently | src/main/java/org/msyu/javautil/exceptions/CloseableChain.java:64-101 | Closing a fresh chain runs nothing and throws nothing; closing it into a suppressor leaves the suppressor unchanged. |
| CloseableChains.OutputFlowsAlongChain | src/main/java/org/msyu/javautil/exceptions/CloseableChain.java:27-58 | `getOutput` after `chain` is the constructor's result on the previous output; after `chainEffects` it is the previous output. |
| CloseableChains.FirstConstructorFailureReleasesNothing | src/examples/java/org/msyu/javautil/exceptions/CloseableChainExamples.java:67-78 | If the first constructor throws, no destructor runs and its throwable is rethrown exactly as thrown. |
| AutoCloseableWrappers.NewWrapper | src/main/java/org/msyu/javautil/exceptions/AutoCloseableWrapper.java:13-15 | The constructor stores the action and runs nothing. |
| AutoCloseableWrappers.RunOnClose | src/main/java/org/msyu/javautil/exceptions/AutoCloseableWrapper.java:5-9 | The factory yields the same wrapper as the constructor. |
| AutoCloseableWrappers.Close | src/main/java/org/msyu/javautil/exceptions/AutoCloseableWrapper.java:17-22 | The action runs if and only if it is non-null. A null action throws nothing. Otherwise what the action throws escapes unchanged. |
| AutoCloseableWrappers.CloseRunsTheActionOnce | src/main/java/org/msyu/javautil/exceptions/AutoCloseableWrapper.java:5-22 | Wrapping an action and closing does exactly what running the action once does. Wrapping null does nothing. |
| ParameterizedAutoCloseables.Wrap | src/main/java/org/msyu/javautil/exceptions/ParameterizedAutoCloseable.java:10-15 | Wrapping runs nothing and keeps the object and the destructor for close. |
| ParameterizedAutoCloseables.WrapWith | src/main/java/org/msyu/javautil/exceptions/ParameterizedAutoCloseable.java:17-24 | The constructor runs once on the object before anything is returned. If it throws, or is null, that throwable escapes and no closeable exists. Otherwise the result is the plain wrap of the object with the destructor. |
| ParameterizedAutoCloseables.Close | src/main/java/org/msyu/javautil/exceptions/ParameterizedAutoCloseable.java:14 | Closing applies the destructor once to the wrapped object and lets its throwable escape. A null destructor throws NullPointerException. |
| ParameterizedAutoCloseables.ConstructThenCloseSameObject | src/main/java/org/msyu/javautil/exceptions/ParameterizedAutoCloseable.java:17-24 | When the constructor succeeds, the constructor and then the destructor run, once each, on the same object. |
| ParameterizedAutoCloseables.ConstructorFailureNeverDestructs | src/main/java/org/msyu/javautil/exceptions/ParameterizedAutoCloseable.java:17-24 | When the constructor throws or is null, the destructor is never invoked. |
| ExhaustiveCases.LowBitsSplit | src/test/java/org/msyu/javautil/exceptions/CloseableChainTest.java:114-116 | Reading 2L bits of the mask is reading the constructor bits, then the destructor bits that `>>> maxLevel` leaves. |
| ExhaustiveCases.CaseOf | src/test/java/org/msyu/javautil/exceptions/CloseableChainTest.java:113-125 | `next()` at a mask reads one constructor flag and one destructor flag per dummy of the level. |
| ExhaustiveCases.Cases | src/test/java/org/msyu/javautil/exceptions/CloseableChainTest.java:104-141 | The iterator yields 1 << (2 * level) cases, each with one constructor flag and one destructor flag per dummy. |
| ExhaustiveCases.FromBitsOfLowBits | src/test/java/org/msyu/javautil/exceptions/CloseableChainTest.java:120-136 | Reading n bits of a mask below 2^n and reassembling them gives the mask back. |
| ExhaustiveCases.LowBitsOfFromBits | src/test/java/org/msyu/javautil/exceptions/CloseableChainTest.java:120-136 | Assembling n flags into a number and reading n bits back gives the flags back. |
| ExhaustiveCases.CaseOfMaskOf | src/test/java/org/msyu/javautil/exceptions/CloseableChainTest.java:113-136 | Every assignment of flags at a level has a mask below testCount at which `next()` produces it. |
| ExhaustiveCases.MaskOfCaseOf | src/test/java/org/msyu/javautil/exceptions/CloseableChainTest.java:113-136 | Every mask below testCount is recovered from the case `next()` produces at it, so no two masks produce the same case. |
| ExhaustiveCases.CasesEnumerateEveryAssignmentOnce | src/test/java/org/msyu/javautil/exceptions/CloseableChainTest.java:96-149 | At each supported level, the 1 << (2 * level) generated cases cover every combination of throwing constructors and destructors, each exactly once. |
| CloseableChainTest.FirstThrowing | src/test/java/org/msyu/javautil/exceptions/CloseableChainTest.java:127-129 | The index found is that of the first throwing constructor: none before it throws, and it throws unless no constructor does. |
| CloseableChainTest.Reverse | src/test/java/org/msyu/javautil/exceptions/CloseableChainTest.java:140 | The reversed list has the same length and holds the i-th element from the end at position i. |
| CloseableChainTest.Expected | src/test/java/org/msyu/javautil/exceptions/CloseableChainTest.java:118-146 | The expected exception and the expected suppressed list are null together, and they are null exactly when no constructor and no destructor throws. |
| CloseableChainTest.ExpectedFor | src/test/java/org/msyu/javautil/exceptions/CloseableChainTest.java:118-146 | The loop of `next()`, with its remove-last and its reverse, computes the closed-form oracle. |
| CloseableChainTest.DummyChain | src/test/java/org/msyu/javautil/exceptions/CloseableChainTest.java:50-55 | The chain after n dummies has n links above the root. |
| CloseableChainTest.WalkDummyChainReleases | src/test/java/org/msyu/javautil/exceptions/CloseableChainTestBase.java:43-52 | Closing the chain of n dummies closes dummies n, n - 1, ..., 1. |
| CloseableChainTest.WalkDummyChainFails | src/test/java/org/msyu/javautil/exceptions/CloseableChainTestBase.java:43-52 | Closing the chain of n dummies fails with the throwing dummies' "d" exceptions, tail first. |
| CloseableChainTest.BuildCompletes | src/test/java/org/msyu/javautil/exceptions/CloseableChainTest.java:50-55 | While no constructor throws, each iteration constructs the next dummy on top of the previous ones. |
| CloseableChainTest.BuildStops | src/test/java/org/msyu/javautil/exceptions/CloseableChainTest.java:50-55 | Once constructor k + 1 throws, the loop has constructed k + 1 dummies, closed the k below tail first, and ends with "c(k+1)" suppressing their close failures, tail first. |
| CloseableChainTest.BuildStopsAt | src/test/java/org/msyu/javautil/exceptions/CloseableChainTest.java:50-55 | The iteration of the first throwing constructor k + 1 follows k successful ones, and ends the loop with "c(k+1)" after closing the k dummies below it. |
| CloseableChainTest.ThrowingConstructorRollsBack | src/main/java/org/msyu/javautil/exceptions/CloseableChain.java:33-38 | `chain` with dummy k + 1's throwing constructor on the chain of k dummies: one construct call, the k closes, then "c(k+1)" with the close failures suppressed. |
| CloseableChainTest.RollbackOfDummies | src/main/java/org/msyu/javautil/exceptions/CloseableChain.java:33-38 | The three parts of that step (`ThrowingStep`): the thrown exception, the first call, and the closes. |
| CloseableChainTest.BuildDummies | src/test/java/org/msyu/javautil/exceptions/CloseableChainTest.java:50-55 | The test's loop, modelled by `Build`, either stops at the first throwing constructor as above, or builds the chain of all the dummies. |
| CloseableChainTest.CloseDummies | src/test/java/org/msyu/javautil/exceptions/CloseableChainTest.java:60 | `close(chain)` on all the dummies throws the tail-most throwing destructor's exception, with the other close failures suppressed, tail first, or nothing if no close throws. |
| CloseableChainTest.ChainAgreesWithOracle | src/test/java/org/msyu/javautil/exceptions/CloseableChainTest.java:42-67 | For every case, the test body, modelled by `RunTest` (the `Build` loop, then `close(chain)`), ends with exactly the exception the oracle predicts: the same message, and the same suppressed exceptions in the same order. If the oracle predicts nothing, nothing is thrown. |
| CloseableChainTest.RunTestCalls | src/test/java/org/msyu/javautil/exceptions/CloseableChainTest.java:42-67 | For every case, the constructors run root first up to the first throwing one. Then every constructed dummy is closed, tail first. |
| CloseableChainTest.BuiltChainMatchesLevelCounter | src/test/java/org/msyu/javautil/exceptions/CloseableChainTest.java:57-58 | When no constructor throws, the chain has one link per dummy, and it has an output exactly when there is at least one dummy. |
| CloseableChainTest.TestAcceptsEveryCase | src/test/java/org/msyu/javautil/exceptions/CloseableChainTest.java:60-66 | For every case, the test's assertions and `checkRootAndSuppressedExceptions` hold. |
| CloseableChainTest.TestAccepts | src/test/java/org/msyu/javautil/exceptions/CloseableChainTestBase.java:56-63 | The asserts at `CloseableChainTest.java` lines 62 and 64 and `checkRootAndSuppressedExceptions`: something is thrown exactly when an exception is expected. When it is, its message and its suppressed messages, in order, are the expected ones. |
| CloseableChainTest.ExhaustiveTestsPass | src/test/java/org/msyu/javautil/exceptions/CloseableChainTest.java:72-82 | Every case the data provider generates passes, at every level up to 5. |
| CloseableChainTest.NoFailuresReleaseInReverse | src/test/java/org/msyu/javautil/exceptions/CloseableChainTest.java:23-39 | With nothing throwing, n dummies are constructed 1..n, closed n..1, and nothing escapes. |
| CloseableChainTest.VerifyOrderWithNoExceptions | src/test/java/org/msyu/javautil/exceptions/CloseableChainTest.java:23-39 | Two dummies: the chain has an output, the calls are construct 1, construct 2, close 2, close 1, and nothing is thrown. |

## Left out

- Java generics and the unchecked cast `(C) throwable` in `close(chain)`: the model has one message type, and any throwable may escape. In Java, `C` erases to `Exception`, so the cast at `CloseableChain.java` line 99 is checked at run time. A first failure that is not an `Exception` (an `AssertionError` from a destructor, say) makes `close(chain)` throw ClassCastException instead. The model does not reproduce this.
- The message of a `NullPointerException` from a call through null depends on the JDK (helpful null-pointer messages), so the model gives it none. Only the `requireNonNull` message is modelled.
- `Throwable.addSuppressed` can fail or do nothing. It throws IllegalArgumentException when a throwable would suppress itself, for example a destructor rethrowing the constructor's throwable. It does nothing when suppression is disabled. The model assumes distinct throwables with suppression enabled.
- Identity of throwables: two throwables with the same message and the same suppressed list are equal in the model.
- `ParameterizedAutoCloseable.Locks.lock`: outside this model. It is a one-line use of `wrap` with `Lock::lock` and `Lock::unlock`.
- The functional interfaces (`FunctionWithException`, `ConsumerWithException`, `RunnableWithException`): they are Dafny function types. A callback's side effects other than its result and its throwable are not modelled.
- `IdentityFunction` and `SupplierWithException`: none of the modelled operations uses them. `IdentityFunction` is the singleton behind `FunctionWithException.identity()`, which returns its input unchanged. In the model that is just the constructor `x => Success(x)`. `SupplierWithException` declares an interface with no logic.
- Concurrency: nothing in the core is synchronized, and the model is sequential.
- Mockito's tracer in the test is replaced by the call trace. The trace records every constructor and destructor invocation, including failing ones. The tracer records only successful ones, so the successful calls are the trace minus the throwing dummies' calls.
- The test's `levelCounter` is replaced by the dummy's index; see above for why the two agree.
- The data provider's stream plumbing is not modelled: `Spliterators`, and the concatenation of levels 0 to 3 in `exhaustiveTests`. The interleaved parameter list is also not modelled; the model takes the two flag sequences directly.
- ExhaustiveCases.CaseOf: the `& levelSizedMask` is not written out. The bit loop reads only the level's low bits, so the masking changes nothing.
- Java `int` width in the generator: masks stay below 2^10, so no shift or `& 1` overflows. The model uses unbounded naturals.
- Assertions written with `assert` in the test: the model states them as lemmas instead. They run only with `-ea` in Java.
- CloseableChains.GetOutput and CloseableChains.CloseThis have no contract of their own. Their behaviour is stated by `OutputFlowsAlongChain` and `WalkRecordsOutcomes`.

=== FILE: auto_closeable_wrapper.dfy ===
/**
 * AutoCloseableWrapper: holds one optional close action (a
 * RunnableWithException) and runs it when closed.
 */
module AutoCloseableWrappers {
  import opened Results
  import opened Throwables

  /** RunnableWithException: returns normally or throws. */
  type CloseAction<M> = () -> Outcome<Throwable<M>>

  datatype AutoCloseableWrapper<M> = AutoCloseableWrapper(closeAction: Option<CloseAction<M>>)

  /** What close() did: whether the action ran, and what escaped from it. */
  datatype Closing<M> = Closing(invoked: bool, thrown: Option<Throwable<M>>)

  /** The constructor: stores the action and runs nothing. */
  function NewWrapper<M>(closeAction: Option<CloseAction<M>>): (w: AutoCloseableWrapper<M>)
    ensures w.closeAction == closeAction
  {
    AutoCloseableWrapper(closeAction)
  }

  /** runOnClose: the static factory for the constructor. */
  function RunOnClose<M>(closeAction: Option<CloseAction<M>>): (w: AutoCloseableWrapper<M>)
    ensures w == NewWrapper(closeAction)
  {
    NewWrapper(closeAction)
  }

  /**
   * close(): a null action makes it a no-op; otherwise the action runs once
   * and whatever it throws escapes unchanged.
   */
  function Close<M>(w: AutoCloseableWrapper<M>): (r: Closing<M>)
    ensures r.invoked <==> w.closeAction.Some?
    ensures w.closeAction.None? ==> r.thrown.None?
    ensures w.closeAction.Some? ==>
      match w.closeAction.value()
      case Pass => r.thrown.None?
      case Fail(x) => r.thrown == Some(x)
  {
    match w.closeAction
    case None => Closing(false, None)
    case Some(action) =>
      match action()
      case Pass => Closing(true, None)
      case Fail(x) => Closing(true, Some(x))
  }

  /**
   * Wrapping an action and closing the wrapper does exactly what running the
   * action does, whichever way the wrapper was made; wrapping null does nothing.
   */
  lemma CloseRunsTheActionOnce<M>(closeAction: Option<CloseAction<M>>)
    ensures Close(RunOnClose(closeAction)) == Close(NewWrapper(closeAction))
    ensures closeAction.None? ==> Close(RunOnClose(closeAction)) == Closing(false, None)
    ensures closeAction.Some? ==>
      Close(RunOnClose(closeAction)) == Closing(true, if closeAction.value().Fail? then Some(closeAction.value().error) else None)
  {
  }
}

=== FILE: closeable_chain.dfy ===
/**
 * CloseableChain: an immutable, tail-owned linked list of acquired
 * resources. Each link holds an output, the destructor that releases it and
 * the link built before it. `chain` and `chainEffects` extend the list or,
 * when their constructor throws, roll back every link built so far; the two
 * `close` methods walk the list from tail to root and run the destructors.
 *
 * Callbacks are total functions returning what they would do (a value, a
 * normal return or a throwable). A link is identified by its depth: the root
 * is link 0 and the n-th link chained onto it is link n.
 */
module CloseableChains {
  import opened Results
  import opened Throwables

  /** ConsumerWithException applied to a link's own output. */
  type Destructor<!V, M> = V -> Outcome<Throwable<M>>

  /** The FunctionWithException given to `chain`: next output from the current one. */
  type Constructor<!V, M> = Option<V> -> Result<Option<V>, Throwable<M>>

  /** The ConsumerWithException given to `chainEffects` as its constructor. */
  type Effect<!V, M> = Option<V> -> Outcome<Throwable<M>>

  /** One link; `prev` is None only for a root. */
  datatype Chain<!V, M> = Chain(output: Option<V>, destructor: Option<Destructor<V, M>>, prev: Option<Chain<V, M>>)

  /** A callback invocation, naming the link it belongs to. */
  datatype Call = Construct(link: nat) | Destruct(link: nat)

  /** What `chain` / `chainEffects` did: the callbacks invoked, then the new chain or the throwable that escaped. */
  datatype Step<!V, M> = Step(calls: seq<Call>, result: Result<Chain<V, M>, Throwable<M>>)

  /** One destructor invocation during a teardown walk. */
  datatype Released<M> = Released(link: nat, outcome: Outcome<Throwable<M>>)

  /** What `close(chain)` did: links released in order, and what it throws. */
  datatype Closed<M> = Closed(released: seq<nat>, thrown: Option<Throwable<M>>)

  /** What `close(chain, suppressor)` did: for a null suppressor, the throwable of the null check; otherwise the links released and the updated suppressor. */
  datatype Suppressing<M> = SuppressorIsNull(thrown: Throwable<M>) | Suppressed(released: seq<nat>, suppressor: Throwable<M>)

  // ---------------------------------------------------------------------
  // Structure of a chain

  /** The index of c: the number of links below it. */
  function Depth<V, M>(c: Chain<V, M>): nat
    decreases c
  {
    match c.prev
    case None => 0
    case Some(p) => 1 + Depth(p)
  }

  /** The link with index j in the chain whose tail is c. */
  function Ancestor<V, M>(c: Chain<V, M>, j: nat): Chain<V, M>
    requires j <= Depth(c)
    decreases c
  {
    if j == Depth(c) then c else Ancestor(c.prev.value, j)
  }

  /** The root link has neither an output nor a destructor (newCloseableChain). */
  predicate Rooted<V, M>(c: Chain<V, M>)
    decreases c
  {
    match c.prev
    case None => c.output.None? && c.destructor.None?
    case Some(p) => Rooted(p)
  }

  /** The link a successful `chain` or `chainEffects` puts on top of c. */
  function Extend<V, M>(c: Chain<V, M>, output: Option<V>, destructor: Option<Destructor<V, M>>): (r: Chain<V, M>)
    ensures Depth(r) == Depth(c) + 1 && Ancestor(r, Depth(c)) == c
    ensures GetOutput(r) == output && (Releasable(r) <==> output.Some? && destructor.Some?)
  {
    Chain(output, destructor, Some(c))
  }

  // ---------------------------------------------------------------------
  // Operations

  /** newCloseableChain: the root link alone. */
  function NewCloseableChain<V, M>(): (r: Chain<V, M>)
    ensures Rooted(r) && Depth(r) == 0
    ensures GetOutput(r).None?
    ensures Walk(Some(r)) == []
  {
    Chain(None, None, None)
  }

  /** getOutput. */
  function GetOutput<V, M>(c: Chain<V, M>): Option<V>
  {
    c.output
  }

  /** closeThis: the link's destructor applied to the link's output. */
  function CloseThis<V, M>(c: Chain<V, M>): Outcome<Throwable<M>>
    requires Releasable(c)
  {
    c.destructor.value(c.output.value)
  }

  /** The teardown loops run closeThis only for links with both an output and a destructor. */
  predicate Releasable<V, M>(c: Chain<V, M>)
  {
    c.output.Some? && c.destructor.Some?
  }

  /**
   * The walk both `close` methods perform, from link to the root: one
   * invocation per releasable link, each recorded with its outcome.
   */
  function Walk<V, M>(link: Option<Chain<V, M>>): (rs: seq<Released<M>>)
    ensures link.None? ==> rs == []
    ensures link.Some? ==> |rs| <= Depth(link.value) + 1
    decreases link
  {
    match link
    case None => []
    case Some(c) =>
      (if Releasable(c) then [Released(Depth(c), CloseThis(c))] else []) + Walk(c.prev)
  }

  /** The links invoked, in invocation order. */
  function ReleasedLinks<M>(rs: seq<Released<M>>): (links: seq<nat>)
  {
    seq(|rs|, i requires 0 <= i < |rs| => rs[i].link)
  }

  /** The throwables of the failed invocations, in invocation order. */
  function Failures<M>(rs: seq<Released<M>>): seq<Throwable<M>>
  {
    if rs == [] then []
    else (if rs[0].outcome.Fail? then [rs[0].outcome.error] else []) + Failures(rs[1..])
  }

  /** The calls a teardown walk makes. */
  function Destructs(links: seq<nat>): (calls: seq<Call>)
    ensures |calls| == |links|
    ensures forall i :: 0 <= i < |links| ==> calls[i] == Destruct(links[i])
  {
    if links == [] then [] else [Destruct(links[0])] + Destructs(links[1..])
  }

  /**
   * close(chain, suppressor): a null suppressor is rejected before anything
   * runs; otherwise every failure of the walk is added to the suppressor's
   * list, after what it already held, and nothing is thrown.
   */
  function CloseInto<V, M>(chain: Option<Chain<V, M>>, suppressor: Option<Throwable<M>>): (r: Suppressing<M>)
    ensures r.SuppressorIsNull? <==> suppressor.None?
    ensures r.SuppressorIsNull? ==> r.thrown == RequireNonNullException("suppressor is null")
    ensures r.SuppressorIsNull? ==> r.thrown != NullPointerException()
    ensures r.Suppressed? ==> r.released == ReleasedLinks(Walk(chain))
    ensures r.Suppressed? ==> r.suppressor.cause == suppressor.value.cause
    ensures r.Suppressed? ==> r.suppressor.suppressed == suppressor.value.suppressed + Failures(Walk(chain))
  {
    match suppressor
    case None => SuppressorIsNull(RequireNonNullException("suppressor is null"))
    case Some(s) =>
      var rs := Walk(chain);
      Suppressed(ReleasedLinks(rs), AddAllSuppressed(s, Failures(rs)))
  }

  /**
   * close(chain): the walk never stops early; the first failure is thrown
   * with every later one added to its suppressed list; no failure, no throw.
   */
  function Close<V, M>(chain: Option<Chain<V, M>>): (r: Closed<M>)
    ensures r.released == ReleasedLinks(Walk(chain))
    ensures r.thrown.None? <==> Failures(Walk(chain)) == []
    ensures r.thrown.Some? ==>
      var fs := Failures(Walk(chain));
      r.thrown.value.cause == fs[0].cause && r.thrown.value.suppressed == fs[0].suppressed + fs[1..]
  {
    var rs := Walk(chain);
    var fs := Failures(rs);
    Closed(ReleasedLinks(rs), if fs == [] then None else Some(AddAllSuppressed(fs[0], fs[1..])))
  }

  /** The catch block of `chain` and `chainEffects`: close(this, x), then rethrow x. */
  function Rollback<V, M>(c: Chain<V, M>, x: Throwable<M>): (r: Step<V, M>)
    ensures r.result.Failure?
    ensures r.calls == Destructs(ReleasedLinks(Walk(Some(c))))
    ensures r.result.error.cause == x.cause
    ensures r.result.error.suppressed == x.suppressed + Failures(Walk(Some(c)))
  {
    var s := CloseInto(Some(c), Some(x));
    Step(Destructs(s.released), Failure(s.suppressor))
  }

  /**
   * chain(constructor, destructor): the constructor gets the current output;
   * a null constructor throws NullPointerException when applied.
   */
  function ChainStep<V, M>(c: Chain<V, M>, ctor: Option<Constructor<V, M>>, destructor: Option<Destructor<V, M>>): (r: Step<V, M>)
    ensures r.result.Success? <==> ctor.Some? && ctor.value(GetOutput(c)).Success?
    ensures r.result.Success? ==>
      && r.calls == [Construct(Depth(c) + 1)]
      && r.result.value == Extend(c, ctor.value(GetOutput(c)).value, destructor)
    ensures r.result.Failure? ==>
      var x := if ctor.None? then NullPointerException() else ctor.value(GetOutput(c)).error;
      && r.calls == (if ctor.Some? then [Construct(Depth(c) + 1)] else []) + Destructs(ReleasedLinks(Walk(Some(c))))
      && r.result.error.cause == x.cause
      && r.result.error.suppressed == x.suppressed + Failures(Walk(Some(c)))
  {
    match ctor
    case None => Rollback(c, NullPointerException())
    case Some(f) =>
      match f(c.output)
      case Success(newOutput) => Step([Construct(Depth(c) + 1)], Success(Extend(c, newOutput, destructor)))
      case Failure(x) =>
        var rollback := Rollback(c, x);
        Step([Construct(Depth(c) + 1)] + rollback.calls, rollback.result)
  }

  /**
   * chainEffects(constructor, destructor): like `chain`, but the new link
   * keeps the current output and only adds a destructor for it.
   */
  function ChainEffects<V, M>(c: Chain<V, M>, ctor: Option<Effect<V, M>>, destructor: Option<Destructor<V, M>>): (r: Step<V, M>)
    ensures r.result.Success? <==> ctor.Some? && ctor.value(GetOutput(c)).Pass?
    ensures r.result.Success? ==>
      && r.calls == [Construct(Depth(c) + 1)]
      && r.result.value == Extend(c, GetOutput(c), destructor)
    ensures r.result.Failure? ==>
      var x := if ctor.None? then NullPointerException() else ctor.value(GetOutput(c)).error;
      && r.calls == (if ctor.Some? then [Construct(Depth(c) + 1)] else []) + Destructs(ReleasedLinks(Walk(Some(c))))
      && r.result.error.cause == x.cause
      && r.result.error.suppressed == x.suppressed + Failures(Walk(Some(c)))
  {
    match ctor
    case None => Rollback(c, NullPointerException())
    case Some(f) =>
      match f(c.output)
      case Pass => Step([Construct(Depth(c) + 1)], Success(Extend(c, c.output, destructor)))
      case Fail(x) =>
        var rollback := Rollback(c, x);
        Step([Construct(Depth(c) + 1)] + rollback.calls, rollback.result)
  }

  // ---------------------------------------------------------------------
  // The two teardown loops as written, against the walk above

  lemma ReleasedLinksAppend<M>(a: seq<Released<M>>, b: seq<Released<M>>)
    ensures ReleasedLinks(a + b) == ReleasedLinks(a) + ReleasedLinks(b)
  {
    assert forall i :: 0 <= i < |a + b| ==> ReleasedLinks(a + b)[i] == (ReleasedLinks(a) + ReleasedLinks(b))[i];
  }

  lemma {:induction false} FailuresAppend<M>(a: seq<Released<M>>, b: seq<Released<M>>)
    ensures Failures(a + b) == Failures(a) + Failures(b)
    decreases |a|
  {
    if a == [] {
      assert a + b == b;
    } else {
      assert (a + b)[1..] == a[1..] + b;
      FailuresAppend(a[1..], b);
    }
  }

  /** One step of the walk: the link's own invocation, then the rest from prev. */
  lemma WalkStep<V, M>(c: Chain<V, M>)
    ensures ReleasedLinks(Walk(Some(c))) ==
      (if Releasable(c) then [Depth(c)] else []) + ReleasedLinks(Walk(c.prev))
    ensures Failures(Walk(Some(c))) ==
      (if Releasable(c) && CloseThis(c).Fail? then [CloseThis(c).error] else []) + Failures(Walk(c.prev))
  {
    var here: seq<Released<M>> := if Releasable(c) then [Released(Depth(c), CloseThis(c))] else [];
    assert Walk(Some(c)) == here + Walk(c.prev);
    ReleasedLinksAppend(here, Walk(c.prev));
    FailuresAppend(here, Walk(c.prev));
  }

  /** close(chain, suppressor): the null check, then the loop. */
  method CloseIntoLoop<V, M>(chain: Option<Chain<V, M>>, suppressor: Option<Throwable<M>>) returns (r: Suppressing<M>)
    ensures r == CloseInto(chain, suppressor)
  {
    if suppressor.None? {
      return SuppressorIsNull(RequireNonNullException("suppressor is null"));
    }
    var released, s := SuppressLoop(chain, suppressor.value);
    r := Suppressed(released, s);
  }

  /** The while loop of close(chain, suppressor), statement by statement. */
  method SuppressLoop<V, M>(chain: Option<Chain<V, M>>, suppressor: Throwable<M>) returns (released: seq<nat>, s: Throwable<M>)
    ensures released == ReleasedLinks(Walk(chain))
    ensures s == AddAllSuppressed(suppressor, Failures(Walk(chain)))
  {
    s := suppressor;
    released := [];
    var link := chain;
    while link.Some?
      invariant released + ReleasedLinks(Walk(link)) == ReleasedLinks(Walk(chain))
      invariant s.cause == suppressor.cause
      invariant s.suppressed + Failures(Walk(link)) == suppressor.suppressed + Failures(Walk(chain))
      decreases link
    {
      var c := link.value;
      WalkStep(c);
      if c.output.Some? && c.destructor.Some? {
        assert released + [Depth(c)] + ReleasedLinks(Walk(c.prev)) == released + ([Depth(c)] + ReleasedLinks(Walk(c.prev)));
        released := released + [Depth(c)];
        var outcome := CloseThis(c);
        if outcome.Fail? {
          assert s.suppressed + [outcome.error] + Failures(Walk(c.prev)) == s.suppressed + ([outcome.error] + Failures(Walk(c.prev)));
          s := AddSuppressed(s, outcome.error);
        }
      }
      link := c.prev;
    }
    assert Walk(link) == [];
  }

  /** The `throwable` variable of close(chain) after the walk meets failure t. */
  function Record<M>(throwable: Option<Throwable<M>>, t: Throwable<M>): Option<Throwable<M>>
  {
    match throwable
    case None => Some(t)
    case Some(first) => Some(AddSuppressed(first, t))
  }

  /** The `throwable` variable after the walk meets every failure of ts in turn. */
  function RecordAll<M>(throwable: Option<Throwable<M>>, ts: seq<Throwable<M>>): (r: Option<Throwable<M>>)
    ensures r.None? <==> throwable.None? && ts == []
    ensures throwable.None? && ts != [] ==> r.value.cause == ts[0].cause
    ensures throwable.Some? ==> r.value.cause == throwable.value.cause
    decreases |ts|
  {
    if ts == [] then throwable else RecordAll(Record(throwable, ts[0]), ts[1..])
  }

  lemma {:induction false} RecordAllAfterFirst<M>(first: Throwable<M>, ts: seq<Throwable<M>>)
    ensures RecordAll(Some(first), ts) == Some(AddAllSuppressed(first, ts))
    decreases |ts|
  {
    if ts != [] {
      RecordAllAfterFirst(AddSuppressed(first, ts[0]), ts[1..]);
    }
  }

  /** The first failure becomes the throwable and the rest are added to it, in order. */
  lemma RecordAllFromNull<M>(ts: seq<Throwable<M>>)
    ensures RecordAll(None, ts) == if ts == [] then None else Some(AddAllSuppressed(ts[0], ts[1..]))
  {
    if ts != [] {
      RecordAllAfterFirst(ts[0], ts[1..]);
    }
  }

  /** One iteration of close(chain) in terms of the recorded throwable. */
  lemma RecordStep<V, M>(throwable: Option<Throwable<M>>, c: Chain<V, M>)
    ensures RecordAll(throwable, Failures(Walk(Some(c)))) ==
      RecordAll(if Releasable(c) && CloseThis(c).Fail? then Record(throwable, CloseThis(c).error) else throwable, Failures(Walk(c.prev)))
  {
    WalkStep(c);
    var rest := Failures(Walk(c.prev));
    if Releasable(c) && CloseThis(c).Fail? {
      assert ([CloseThis(c).error] + rest)[1..] == rest;
    } else {
      assert Failures(Walk(Some(c))) == rest;
    }
  }

  /** The while loop of close(chain), with its `throwable == null` test. */
  method CloseLoop<V, M>(chain: Option<Chain<V, M>>) returns (r: Closed<M>)
    ensures r == Close(chain)
  {
    var throwable: Option<Throwable<M>> := None;
    var released: seq<nat> := [];
    var link := chain;
    while link.Some?
      invariant released + ReleasedLinks(Walk(link)) == ReleasedLinks(Walk(chain))
      invariant RecordAll(throwable, Failures(Walk(link))) == RecordAll(None, Failures(Walk(chain)))
      decreases link
    {
      var c := link.value;
      WalkStep(c);
      RecordStep(throwable, c);
      if c.output.Some? && c.destructor.Some? {
        assert released + [Depth(c)] + ReleasedLinks(Walk(c.prev)) == released + ([Depth(c)] + ReleasedLinks(Walk(c.prev)));
        released := released + [Depth(c)];
        var outcome := CloseThis(c);
        if outcome.Fail? {
          if throwable == None {
            throwable := Some(outcome.error);
          } else {
            throwable := Some(AddSuppressed(throwable.value, outcome.error));
          }
        }
      }
      link := c.prev;
    }
    assert Walk(link) == [];
    RecordAllFromNull(Failures(Walk(chain)));
    return Closed(released, throwable);
  }

  // ---------------------------------------------------------------------
  // Properties

  /** Link indices of the walk from c are at most c's and strictly decrease. */
  lemma {:induction false} WalkDescends<V, M>(c: Chain<V, M>)
    ensures forall i :: 0 <= i < |Walk(Some(c))| ==> Walk(Some(c))[i].link <= Depth(c)
    ensures forall i, j :: 0 <= i < j < |Walk(Some(c))| ==> Walk(Some(c))[i].link > Walk(Some(c))[j].link
    decreases c
  {
    var here: seq<Released<M>> := if Releasable(c) then [Released(Depth(c), CloseThis(c))] else [];
    var rs := Walk(Some(c));
    assert rs == here + Walk(c.prev);
    match c.prev
    case None =>
      assert rs == here;
    case Some(p) =>
      WalkDescends(p);
      var rest := Walk(Some(p));
      forall i | 0 <= i < |rs|
        ensures rs[i].link <= Depth(c)
      {
        if i >= |here| {
          assert rs[i] == rest[i - |here|];
        }
      }
      forall i, j | 0 <= i < j < |rs|
        ensures rs[i].link > rs[j].link
      {
        assert rs[j] == rest[j - |here|];
        if i >= |here| {
          assert rs[i] == rest[i - |here|];
        }
      }
  }

  /** Every invocation of the walk from c is of a releasable link and records its closeThis. */
  lemma {:induction false} WalkRecordsOutcomes<V, M>(c: Chain<V, M>)
    ensures forall i :: 0 <= i < |Walk(Some(c))| ==>
      && Walk(Some(c))[i].link <= Depth(c)
      && Releasable(Ancestor(c, Walk(Some(c))[i].link))
      && Walk(Some(c))[i].outcome == CloseThis(Ancestor(c, Walk(Some(c))[i].link))
    decreases c
  {
    var here: seq<Released<M>> := if Releasable(c) then [Released(Depth(c), CloseThis(c))] else [];
    var rs := Walk(Some(c));
    assert rs == here + Walk(c.prev);
    match c.prev
    case None =>
      assert rs == here;
    case Some(p) =>
      WalkRecordsOutcomes(p);
      var rest := Walk(Some(p));
      forall i | 0 <= i < |rs|
        ensures rs[i].link <= Depth(c)
        ensures Releasable(Ancestor(c, rs[i].link))
        ensures rs[i].outcome == CloseThis(Ancestor(c, rs[i].link))
      {
        if i >= |here| {
          var k := i - |here|;
          assert rs[i] == rest[k];
          assert Ancestor(c, rest[k].link) == Ancestor(p, rest[k].link);
        }
      }
  }

  /** The walk from c invokes link j exactly when link j is releasable. */
  lemma {:induction false} WalkCoversReleasable<V, M>(c: Chain<V, M>)
    ensures forall j :: 0 <= j <= Depth(c) ==> (j in ReleasedLinks(Walk(Some(c))) <==> Releasable(Ancestor(c, j)))
    decreases c
  {
    var here: seq<Released<M>> := if Releasable(c) then [Released(Depth(c), CloseThis(c))] else [];
    var rs := Walk(Some(c));
    assert rs == here + Walk(c.prev);
    ReleasedLinksAppend(here, Walk(c.prev));
    match c.prev
    case None =>
      assert rs == here;
      forall j | 0 <= j <= Depth(c)
        ensures j in ReleasedLinks(rs) <==> Releasable(Ancestor(c, j))
      {
        if Releasable(c) {
          assert ReleasedLinks(rs)[0] == j;
        }
      }
    case Some(p) =>
      WalkCoversReleasable(p);
      WalkDescends(p);
      var rest := Walk(Some(p));
      forall j | 0 <= j <= Depth(c)
        ensures j in ReleasedLinks(rs) <==> Releasable(Ancestor(c, j))
      {
        if j == Depth(c) {
          assert j !in ReleasedLinks(rest);
          if Releasable(c) {
            assert ReleasedLinks(rs)[0] == j;
          }
        } else {
          assert Ancestor(c, j) == Ancestor(p, j);
          assert j in ReleasedLinks(rs) <==> j in ReleasedLinks(rest);
        }
      }
  }

  /**
   * Teardown order: the walk from the tail invokes the destructor of every
   * link with an output and a destructor, of no other link, exactly once,
   * with strictly decreasing link indices, and records that link's outcome.
   */
  lemma WalkReleasesEachLinkOnceTailFirst<V, M>(c: Chain<V, M>)
    ensures forall i :: 0 <= i < |Walk(Some(c))| ==>
      Walk(Some(c))[i].link <= Depth(c) &&
      Releasable(Ancestor(c, Walk(Some(c))[i].link)) && Walk(Some(c))[i].outcome == CloseThis(Ancestor(c, Walk(Some(c))[i].link))
    ensures forall i, j :: 0 <= i < j < |Walk(Some(c))| ==> Walk(Some(c))[i].link > Walk(Some(c))[j].link
    ensures forall j :: 0 <= j <= Depth(c) ==> (j in ReleasedLinks(Walk(Some(c))) <==> Releasable(Ancestor(c, j)))
  {
    WalkDescends(c);
    WalkRecordsOutcomes(c);
    WalkCoversReleasable(c);
  }

  /** The root of a chain built from newCloseableChain is never released. */
  lemma RootIsNeverReleased<V, M>(c: Chain<V, M>)
    requires Rooted(c)
    ensures 0 !in ReleasedLinks(Walk(Some(c)))
  {
    WalkReleasesEachLinkOnceTailFirst(c);
    RootedAncestor(c);
  }

  lemma {:induction false} RootedAncestor<V, M>(c: Chain<V, M>)
    requires Rooted(c)
    ensures !Releasable(Ancestor(c, 0))
    decreases c
  {
    match c.prev
    case None =>
    case Some(p) => RootedAncestor(p);
  }

  /**
   * Links are never mutated: extending a chain keeps every existing link at
   * its index, puts the new output and destructor one index above, and keeps
   * the root empty.
   */
  lemma {:induction false} ExtendKeepsEarlierLinks<V, M>(c: Chain<V, M>, output: Option<V>, destructor: Option<Destructor<V, M>>)
    ensures var e := Extend(c, output, destructor);
      && Depth(e) == Depth(c) + 1
      && GetOutput(e) == output
      && (forall j :: 0 <= j <= Depth(c) ==> Ancestor(e, j) == Ancestor(c, j))
      && (Rooted(c) ==> Rooted(e))
  {
    var e := Extend(c, output, destructor);
    assert e.prev == Some(c);
    forall j | 0 <= j <= Depth(c)
      ensures Ancestor(e, j) == Ancestor(c, j)
    {
    }
  }

  /**
   * Closing an empty chain (newCloseableChain) invokes nothing and throws
   * nothing; closing it into a suppressor leaves the suppressor unchanged.
   */
  lemma EmptyChainClosesSilently<V, M>(s: Throwable<M>)
    ensures Close(Some(NewCloseableChain<V, M>())) == Closed([], None)
    ensures CloseInto(Some(NewCloseableChain<V, M>()), Some(s)) == Suppressed([], s)
  {
    var e := NewCloseableChain<V, M>();
    assert Walk(Some(e)) == [];
  }

  /**
   * Outputs flow along the chain: each constructor receives the current
   * output, `getOutput` of the new chain is the constructor's result, and a
   * `chainEffects` link passes the current output on unchanged.
   */
  lemma OutputFlowsAlongChain<V, M>(c: Chain<V, M>, ctor: Constructor<V, M>, effect: Effect<V, M>, destructor: Option<Destructor<V, M>>)
    ensures var r := ChainStep(c, Some(ctor), destructor);
      r.result.Success? ==> GetOutput(r.result.value) == ctor(GetOutput(c)).value
    ensures var r := ChainEffects(c, Some(effect), destructor);
      r.result.Success? ==> GetOutput(r.result.value) == GetOutput(c)
  {
  }

  /**
   * A constructor failure on a chain with nothing to release (the first
   * `chain` call) invokes no destructor and rethrows the constructor's
   * throwable exactly as it was thrown.
   */
  lemma FirstConstructorFailureReleasesNothing<V, M>(ctor: Constructor<V, M>, destructor: Option<Destructor<V, M>>)
    requires ctor(None).Failure?
    ensures ChainStep(NewCloseableChain(), Some(ctor), destructor)
      == Step([Construct(1)], Failure(ctor(None).error))
  {
    var e := NewCloseableChain<V, M>();
    assert Walk(Some(e)) == [];
  }
}

=== FILE: closeable_chain_test.dfy ===
/**
 * The exhaustive test of CloseableChain as an oracle. A test case says, for
 * each of L dummies, whether its constructor throws and whether its close
 * throws. The oracle (generateExhaustiveTestsForLevel's loop) predicts the
 * exception the scenario ends with; the scenario chains one dummy per case
 * entry on a fresh chain and then closes it. The main theorem says the
 * chain model throws exactly what the oracle predicts, for every case.
 *
 * The dummies' messages are labels: C(n) for "cn", D(n) for "dn". The test
 * base numbers a dummy by a shared counter that constructors increment and
 * closes decrement; since links are created root-first and closed
 * tail-first, the counter's value at each call is the link's own index,
 * which is what the labels carry.
 */
module CloseableChainTest {
  import opened Results
  import opened Throwables
  import opened CloseableChains
  import opened ExhaustiveCases

  /** The message of a dummy's exception. */
  datatype Label = C(level: nat) | D(level: nat)

  /** A constructed dummy: its index and whether its close throws. */
  datatype Dummy = Dummy(level: nat, throwsOnClose: bool)

  /** What a scenario did: the callback calls in order and what escaped. */
  datatype Observed = Observed(calls: seq<Call>, thrown: Option<Throwable<Label>>)

  /** The oracle's prediction: null or a message, and null or the suppressed messages. */
  datatype Expectation = Expectation(exception: Option<Label>, suppressed: Option<seq<Label>>)

  // ---------------------------------------------------------------------
  // The scenario

  /** `prev -> new Dummy(constructorThrows, destructorThrows, prev)` for the dummy at the given index. */
  function DummyConstructor(level: nat, throwsOnCreate: bool, throwsOnClose: bool): Constructor<Dummy, Label>
  {
    (prev: Option<Dummy>) =>
      if throwsOnCreate then Failure(Thrown(C(level))) else Success(Some(Dummy(level, throwsOnClose)))
  }

  /** `Dummy::close`. */
  function DummyClose(): Destructor<Dummy, Label>
  {
    (d: Dummy) => if d.throwsOnClose then Fail(Thrown(D(d.level))) else Pass
  }

  /**
   * The test's while loop over the first n entries: one `chain` call per
   * dummy, the first failing call ending the loop with its exception.
   */
  function Build(cf: seq<bool>, df: seq<bool>, n: nat): Step<Dummy, Label>
    requires |cf| == |df| && n <= |cf|
  {
    if n == 0 then Step([], Success(NewCloseableChain()))
    else
      var b := Build(cf, df, n - 1);
      if b.result.Failure? then b
      else
        var s := ChainStep(b.result.value, Some(DummyConstructor(n, cf[n - 1], df[n - 1])), Some(DummyClose()));
        Step(b.calls + s.calls, s.result)
  }

  /** The body of `test`: build the chain, then `close(chain)` if building did not throw. */
  function RunTest(cf: seq<bool>, df: seq<bool>): Observed
    requires |cf| == |df|
  {
    var b := Build(cf, df, |cf|);
    match b.result
    case Failure(x) => Observed(b.calls, Some(x))
    case Success(chain) =>
      var closed := Close(Some(chain));
      Observed(b.calls + Destructs(closed.released), closed.thrown)
  }

  // ---------------------------------------------------------------------
  // The oracle

  /** The index of the first throwing constructor, or |flags| if none throws. */
  function FirstThrowing(flags: seq<bool>): (k: nat)
    ensures k <= |flags|
    ensures forall j :: 0 <= j < k ==> !flags[j]
    ensures k < |flags| ==> flags[k]
  {
    if flags == [] then 0
    else if flags[0] then 0
    else 1 + FirstThrowing(flags[1..])
  }

  /** The labels of the throwing destructors among the first n dummies, root first. */
  function FailingDestructors(df: seq<bool>, n: nat): seq<Label>
    requires n <= |df|
  {
    if n == 0 then [] else FailingDestructors(df, n - 1) + (if df[n - 1] then [D(n)] else [])
  }

  /** Collections.reverse. */
  function Reverse<T>(s: seq<T>): (r: seq<T>)
    ensures |r| == |s|
    ensures forall i :: 0 <= i < |s| ==> r[i] == s[|s| - 1 - i]
  {
    if s == [] then [] else [s[|s| - 1]] + Reverse(s[..|s| - 1])
  }

  /**
   * The oracle in closed form: the first throwing constructor's exception,
   * with the throwing destructors below it, tail first; with no throwing
   * constructor, the tail-most throwing destructor's exception with the
   * other throwing destructors, tail first; with neither, nothing.
   */
  function Expected(cf: seq<bool>, df: seq<bool>): (e: Expectation)
    requires |cf| == |df|
    ensures e.exception.None? <==> e.suppressed.None?
    ensures e.exception.None? <==> FirstThrowing(cf) == |cf| && FailingDestructors(df, |df|) == []
  {
    var k := FirstThrowing(cf);
    if k < |cf| then Expectation(Some(C(k + 1)), Some(Reverse(FailingDestructors(df, k))))
    else
      var ds := FailingDestructors(df, |df|);
      if ds == [] then Expectation(None, None)
      else Expectation(Some(ds[|ds| - 1]), Some(Reverse(ds[..|ds| - 1])))
  }

  /** The loop of next() as written, with its remove-last and reverse. */
  method ExpectedFor(cf: seq<bool>, df: seq<bool>) returns (e: Expectation)
    requires |cf| == |df|
    ensures e == Expected(cf, df)
  {
    ghost var k := FirstThrowing(cf);
    var exception: Option<Label> := None;
    var suppressed: seq<Label> := [];
    var i := 0;
    while i < |cf|
      invariant 0 <= i <= |cf|
      invariant i <= k ==> exception.None? && suppressed == FailingDestructors(df, i)
      invariant k < i ==> exception == Some(C(k + 1)) && suppressed == FailingDestructors(df, k)
    {
      if cf[i] && exception.None? {
        exception := Some(C(i + 1));
      }
      if df[i] && exception.None? {
        suppressed := suppressed + [D(i + 1)];
      }
      i := i + 1;
    }
    if exception.None? && suppressed != [] {
      exception := Some(suppressed[|suppressed| - 1]);
      suppressed := suppressed[..|suppressed| - 1];
    }
    suppressed := Reverse(suppressed);
    e := Expectation(exception, if exception.None? then None else Some(suppressed));
  }

  /** The exception that carries an expectation's messages, if it expects one. */
  function ExpectedThrowable(e: Expectation): Option<Throwable<Label>>
  {
    match (e.exception, e.suppressed)
    case (Some(x), Some(ss)) => Some(Throwable(Message(x), ThrownAll(ss)))
    case _ => None
  }

  /** One exception per label, in order. */
  function ThrownAll(ls: seq<Label>): (ts: seq<Throwable<Label>>)
    ensures |ts| == |ls|
  {
    seq(|ls|, i requires 0 <= i < |ls| => Thrown(ls[i]))
  }

  /** getMessage, as a dummy label: a NullPointerException carries none. */
  function MessageOf(t: Throwable<Label>): Option<Label>
  {
    match t.cause
    case Message(l) => Some(l)
    case NullPointer => None
    case NullCheck(_) => None
  }

  /**
   * What `test` and checkRootAndSuppressedExceptions assert of the outcome:
   * nothing thrown when nothing is expected; otherwise the thrown message
   * and the messages of its suppressed list, in order, as expected.
   */
  predicate TestAccepts(thrown: Option<Throwable<Label>>, e: Expectation)
    ensures TestAccepts(thrown, e) ==> (thrown.None? <==> e.exception.None?)
  {
    match thrown
    case None => e.exception.None?
    case Some(x) =>
      && e.exception.Some? && e.suppressed.Some?
      && MessageOf(x) == e.exception
      && |x.suppressed| == |e.suppressed.value|
      && forall i :: 0 <= i < |x.suppressed| ==> MessageOf(x.suppressed[i]) == Some(e.suppressed.value[i])
  }

  // ---------------------------------------------------------------------
  // The dummies' chain

  /** The chain after the first n dummies were constructed. */
  function DummyChain(df: seq<bool>, n: nat): (c: Chain<Dummy, Label>)
    requires n <= |df|
    ensures Depth(c) == n
  {
    if n == 0 then NewCloseableChain()
    else Extend(DummyChain(df, n - 1), Some(Dummy(n, df[n - 1])), Some(DummyClose()))
  }

  /** n, n - 1, ..., 1. */
  function Countdown(n: nat): seq<nat>
  {
    if n == 0 then [] else [n] + Countdown(n - 1)
  }

  /** The construct calls of the first n links, in order. */
  function Constructs(n: nat): seq<Call>
  {
    if n == 0 then [] else Constructs(n - 1) + [Construct(n)]
  }

  /** Dummy n's link: releasable, at index n, failing exactly when its close throws. */
  lemma DummyLink(df: seq<bool>, n: nat)
    requires 0 < n <= |df|
    ensures var c := DummyChain(df, n);
      && Releasable(c) && Depth(c) == n && c.prev == Some(DummyChain(df, n - 1))
      && CloseThis(c) == if df[n - 1] then Fail(Thrown(D(n))) else Pass
  {
  }

  lemma ReverseSnoc<T>(s: seq<T>, x: T)
    ensures Reverse(s + [x]) == [x] + Reverse(s)
  {
    assert (s + [x])[..|s|] == s;
  }

  lemma ThrownAllCons(x: Label, ls: seq<Label>)
    ensures ThrownAll([x] + ls) == [Thrown(x)] + ThrownAll(ls)
  {
  }

  /** Closing the dummies' chain releases every dummy, tail first. */
  lemma {:induction false} WalkDummyChainReleases(df: seq<bool>, n: nat)
    requires n <= |df|
    ensures ReleasedLinks(Walk(Some(DummyChain(df, n)))) == Countdown(n)
  {
    if n > 0 {
      DummyLink(df, n);
      WalkStep(DummyChain(df, n));
      WalkDummyChainReleases(df, n - 1);
    }
  }

  /** Closing the dummies' chain fails with the throwing destructors' exceptions, tail first. */
  lemma {:induction false} WalkDummyChainFails(df: seq<bool>, n: nat)
    requires n <= |df|
    ensures Failures(Walk(Some(DummyChain(df, n)))) == ThrownAll(Reverse(FailingDestructors(df, n)))
  {
    if n > 0 {
      var rest := FailingDestructors(df, n - 1);
      DummyLink(df, n);
      WalkStep(DummyChain(df, n));
      WalkDummyChainFails(df, n - 1);
      if df[n - 1] {
        ReverseSnoc(rest, D(n));
        ThrownAllCons(D(n), Reverse(rest));
      } else {
        assert FailingDestructors(df, n) == rest;
      }
    }
  }

  /**
   * The exception a scenario ends with when constructor k + 1 throws: its
   * own, with the throwing destructors of the k dummies below it, tail first.
   */
  function ConstructorFailure(df: seq<bool>, k: nat): Throwable<Label>
    requires k <= |df|
  {
    Throwable(Message(C(k + 1)), ThrownAll(Reverse(FailingDestructors(df, k))))
  }

  /** While no constructor throws, the loop constructs one dummy per iteration. */
  lemma {:induction false} BuildCompletes(cf: seq<bool>, df: seq<bool>, n: nat)
    requires |cf| == |df| && n <= FirstThrowing(cf)
    ensures Build(cf, df, n) == Step(Constructs(n), Success(DummyChain(df, n)))
  {
    if n > 0 {
      BuildCompletes(cf, df, n - 1);
      var below := DummyChain(df, n - 1);
      var ctor := DummyConstructor(n, cf[n - 1], df[n - 1]);
      assert !cf[n - 1];
      assert ctor(GetOutput(below)) == Success(Some(Dummy(n, df[n - 1])));
      var s := ChainStep(below, Some(ctor), Some(DummyClose()));
      assert s.calls == [Construct(n)];
      assert s.result == Success(DummyChain(df, n));
    }
  }

  /**
   * Once constructor k + 1 throws, the loop has constructed k + 1 dummies,
   * rolled back the k below, tail first, and ends with that exception.
   */
  lemma {:induction false} BuildStops(cf: seq<bool>, df: seq<bool>, n: nat)
    requires |cf| == |df| && FirstThrowing(cf) < n <= |cf|
    ensures var k := FirstThrowing(cf);
      Build(cf, df, n) == Step(Constructs(k + 1) + Destructs(Countdown(k)), Failure(ConstructorFailure(df, k)))
  {
    var k := FirstThrowing(cf);
    if k < n - 1 {
      BuildStops(cf, df, n - 1);
    } else {
      BuildStopsAt(cf, df);
    }
  }

  /** The iteration of the first throwing constructor. */
  lemma BuildStopsAt(cf: seq<bool>, df: seq<bool>)
    requires |cf| == |df| && FirstThrowing(cf) < |cf|
    ensures var k := FirstThrowing(cf);
      Build(cf, df, k + 1) == Step(Constructs(k + 1) + Destructs(Countdown(k)), Failure(ConstructorFailure(df, k)))
  {
    var k := FirstThrowing(cf);
    BuildCompletes(cf, df, k);
    assert cf[k];
    ThrowingConstructorRollsBack(df, k);
    RollbackAfterConstructs(k);
  }

  /** The calls of k successful iterations followed by those of the throwing one. */
  lemma RollbackAfterConstructs(k: nat)
    ensures Constructs(k) + ([Construct(k + 1)] + Destructs(Countdown(k))) == Constructs(k + 1) + Destructs(Countdown(k))
  {
  }

  /** `chain` with dummy k + 1's constructor, which throws, on top of the chain of k dummies. */
  function ThrowingStep(df: seq<bool>, k: nat): Step<Dummy, Label>
    requires k < |df|
  {
    ChainStep(DummyChain(df, k), Some(DummyConstructor(k + 1, true, df[k])), Some(DummyClose()))
  }

  /** Dummy k + 1's constructor throws on top of the chain of k dummies. */
  lemma ThrowingConstructorRollsBack(df: seq<bool>, k: nat)
    requires k < |df|
    ensures ThrowingStep(df, k) == Step([Construct(k + 1)] + Destructs(Countdown(k)), Failure(ConstructorFailure(df, k)))
  {
    var r := ThrowingStep(df, k);
    RollbackOfDummies(df, k);
    assert r.calls == [r.calls[0]] + r.calls[1..];
  }

  /** The parts of that step, each from the contract of `chain`. */
  lemma RollbackOfDummies(df: seq<bool>, k: nat)
    requires k < |df|
    ensures ThrowingStep(df, k).result == Failure(ConstructorFailure(df, k))
    ensures ThrowingStep(df, k).calls[0] == Construct(k + 1)
    ensures ThrowingStep(df, k).calls[1..] == Destructs(Countdown(k))
  {
    var ctor := DummyConstructor(k + 1, true, df[k]);
    assert ctor(GetOutput(DummyChain(df, k))) == Failure(Thrown(C(k + 1)));
    WalkDummyChainReleases(df, k);
    WalkDummyChainFails(df, k);
    var r := ChainStep(DummyChain(df, k), Some(ctor), Some(DummyClose()));
    assert r.result.Failure?;
    assert r.result.error == ConstructorFailure(df, k);
  }

  /** The whole loop: it stops at the first throwing constructor, or builds every dummy. */
  lemma BuildDummies(cf: seq<bool>, df: seq<bool>)
    requires |cf| == |df|
    ensures var k := FirstThrowing(cf);
      Build(cf, df, |cf|) ==
        if k < |cf| then Step(Constructs(k + 1) + Destructs(Countdown(k)), Failure(ConstructorFailure(df, k)))
        else Step(Constructs(|cf|), Success(DummyChain(df, |cf|)))
  {
    if FirstThrowing(cf) < |cf| {
      BuildStops(cf, df, |cf|);
    } else {
      BuildCompletes(cf, df, |cf|);
    }
  }

  // ---------------------------------------------------------------------
  // The test against the chain

  /**
   * For every case, the scenario ends with exactly the exception the
   * oracle predicts: the message, and the suppressed exceptions in order.
   */
  lemma ChainAgreesWithOracle(cf: seq<bool>, df: seq<bool>)
    requires |cf| == |df|
    ensures RunTest(cf, df).thrown == ExpectedThrowable(Expected(cf, df))
  {
    BuildDummies(cf, df);
    if FirstThrowing(cf) == |cf| {
      CloseDummies(df);
    }
  }

  /**
   * Closing the chain of all dummies throws the tail-most throwing
   * destructor's exception with the others suppressed, tail first.
   */
  lemma CloseDummies(df: seq<bool>)
    ensures var ds := FailingDestructors(df, |df|);
      Close(Some(DummyChain(df, |df|))).thrown ==
        if ds == [] then None else Some(Throwable(Message(ds[|ds| - 1]), ThrownAll(Reverse(ds[..|ds| - 1]))))
  {
    var ds := FailingDestructors(df, |df|);
    WalkDummyChainFails(df, |df|);
    if ds != [] {
      var fs := ThrownAll(Reverse(ds));
      assert Reverse(ds) == [ds[|ds| - 1]] + Reverse(ds[..|ds| - 1]);
      ThrownAllCons(ds[|ds| - 1], Reverse(ds[..|ds| - 1]));
      assert fs[0] == Thrown(ds[|ds| - 1]);
      assert fs[1..] == ThrownAll(Reverse(ds[..|ds| - 1]));
      var thrown := Close(Some(DummyChain(df, |df|))).thrown;
      assert thrown.value.cause == Message(ds[|ds| - 1]);
      assert thrown.value.suppressed == [] + fs[1..];
      assert thrown.value.suppressed == ThrownAll(Reverse(ds[..|ds| - 1]));
      assert thrown == Some(Throwable(Message(ds[|ds| - 1]), ThrownAll(Reverse(ds[..|ds| - 1]))));
    }
  }

  /**
   * The callback calls of every case: the constructors up to the first
   * throwing one, then the destructors of every dummy that was
   * constructed, tail first.
   */
  lemma RunTestCalls(cf: seq<bool>, df: seq<bool>)
    requires |cf| == |df|
    ensures var k := FirstThrowing(cf);
      RunTest(cf, df).calls ==
        if k < |cf| then Constructs(k + 1) + Destructs(Countdown(k))
        else Constructs(|cf|) + Destructs(Countdown(|cf|))
  {
    BuildDummies(cf, df);
    if FirstThrowing(cf) == |cf| {
      WalkDummyChainReleases(df, |df|);
    }
  }

  /**
   * The test's assertions before `close(chain)`: when no constructor
   * throws, the chain holds one link per dummy and has an output exactly
   * when there is at least one dummy.
   */
  lemma BuiltChainMatchesLevelCounter(cf: seq<bool>, df: seq<bool>)
    requires |cf| == |df|
    requires FirstThrowing(cf) == |cf|
    ensures Build(cf, df, |cf|).result.Success?
    ensures Depth(Build(cf, df, |cf|).result.value) == |cf|
    ensures GetOutput(Build(cf, df, |cf|).result.value).None? <==> |cf| == 0
  {
    BuildDummies(cf, df);
  }

  /** The test's assertions pass on every case. */
  lemma TestAcceptsEveryCase(cf: seq<bool>, df: seq<bool>)
    requires |cf| == |df|
    ensures TestAccepts(RunTest(cf, df).thrown, Expected(cf, df))
  {
    ChainAgreesWithOracle(cf, df);
  }

  /** Every case the data provider generates, at every supported level, passes. */
  lemma ExhaustiveTestsPass(level: nat, mask: nat)
    requires level <= 5 && mask < Pow2(2 * level)
    ensures var c := CaseOf(level, mask);
      TestAccepts(RunTest(c.ctorThrows, c.dtorThrows).thrown, Expected(c.ctorThrows, c.dtorThrows))
  {
    var c := CaseOf(level, mask);
    TestAcceptsEveryCase(c.ctorThrows, c.dtorThrows);
  }

  /** With nothing throwing, every dummy is constructed root first and closed tail first. */
  lemma NoFailuresReleaseInReverse(n: nat)
    ensures var none := seq(n, _ => false);
      RunTest(none, none) == Observed(Constructs(n) + Destructs(Countdown(n)), None)
  {
    var none := seq(n, _ => false);
    RunTestCalls(none, none);
    ChainAgreesWithOracle(none, none);
    NoFailingDestructors(none, n);
  }

  lemma {:induction false} NoFailingDestructors(df: seq<bool>, n: nat)
    requires n <= |df|
    requires forall i :: 0 <= i < |df| ==> !df[i]
    ensures FailingDestructors(df, n) == []
  {
    if n > 0 {
      NoFailingDestructors(df, n - 1);
    }
  }

  /** verifyOrderWithNoExceptions: two dummies are constructed 1, 2 and closed 2, 1. */
  lemma VerifyOrderWithNoExceptions()
    ensures var none := seq(2, _ => false);
      && RunTest(none, none) == Observed([Construct(1), Construct(2), Destruct(2), Destruct(1)], None)
      && GetOutput(Build(none, none, 2).result.value).Some?
  {
    var none := seq(2, _ => false);
    NoFailuresReleaseInReverse(2);
    TwoDummiesCallOrder();
    BuiltChainMatchesLevelCounter(none, none);
  }

  lemma TwoDummiesCallOrder()
    ensures Constructs(2) + Destructs(Countdown(2)) == [Construct(1), Construct(2), Destruct(2), Destruct(1)]
  {
    assert Constructs(2) == [Construct(1), Construct(2)];
    assert Destructs(Countdown(2)) == [Destruct(2), Destruct(1)];
  }
}

=== FILE: exhaustive_cases.dfy ===
/**
 * The case enumeration of CloseableChainTest.generateExhaustiveTestsForLevel:
 * at level L the iterator visits every mask below 2^(2L); the low L bits say
 * which constructors throw and the next L bits which destructors throw, bit i
 * belonging to link i + 1. Java's int shifts and masks are written as
 * division and remainder by powers of two, which is exact here because the
 * level is at most 5 and every mask is non-negative and below 2^10.
 */
module ExhaustiveCases {

  /** 1 << n. */
  function Pow2(n: nat): (p: nat)
    ensures p >= 1
  {
    if n == 0 then 1 else 2 * Pow2(n - 1)
  }

  /**
   * The n low bits of m, least significant first: what the loop reads with
   * `(bits & 1) != 0` before each `bits >>>= 1`.
   */
  function LowBits(m: nat, n: nat): (bs: seq<bool>)
    ensures |bs| == n
  {
    if n == 0 then [] else [m % 2 == 1] + LowBits(m / 2, n - 1)
  }

  /** The number whose bits, least significant first, are bs. */
  function FromBits(bs: seq<bool>): (m: nat)
    ensures m < Pow2(|bs|)
  {
    if bs == [] then 0 else (if bs[0] then 1 else 0) + 2 * FromBits(bs[1..])
  }

  /** One test case: which constructors and which destructors throw, link by link. */
  datatype Case = Case(ctorThrows: seq<bool>, dtorThrows: seq<bool>)

  /**
   * currentMask >>> n: the mask with its n low bits dropped. The shift is
   * written bit by bit, as the loop's `bits >>>= 1`.
   */
  function ShiftRight(m: nat, n: nat): nat
  {
    if n == 0 then m else ShiftRight(m / 2, n - 1)
  }

  /**
   * The flags next() derives from currentMask at the given level. Masking
   * with levelSizedMask is left implicit: the loop reads only the level's
   * low bits of each operand anyway.
   */
  function CaseOf(level: nat, mask: nat): (c: Case)
    ensures |c.ctorThrows| == level && |c.dtorThrows| == level
  {
    Case(LowBits(mask, level), LowBits(ShiftRight(mask, level), level))
  }

  /** The mask at which the iterator produces case c: constructor bits low, destructor bits above them. */
  function MaskOf(c: Case): nat
  {
    FromBits(c.ctorThrows + c.dtorThrows)
  }

  /** The cases of one level in iteration order: testCount = 1 << (2 * level) of them. */
  function Cases(level: nat): (cs: seq<Case>)
    requires level <= 5
    ensures |cs| == Pow2(2 * level)
    ensures forall i :: 0 <= i < |cs| ==> |cs[i].ctorThrows| == level && |cs[i].dtorThrows| == level
  {
    seq(Pow2(2 * level), mask requires 0 <= mask => CaseOf(level, mask))
  }

  // ---------------------------------------------------------------------
  // Bits

  /** Reading a + b bits reads a bits, then b bits of what the first a shifts leave. */
  lemma {:induction false} LowBitsSplit(m: nat, a: nat, b: nat)
    ensures LowBits(m, a + b) == LowBits(m, a) + LowBits(ShiftRight(m, a), b)
    decreases a
  {
    if a > 0 {
      LowBitsSplit(m / 2, a - 1, b);
      assert LowBits(m, a + b) == [m % 2 == 1] + LowBits(m / 2, (a - 1) + b);
    }
  }

  /** The low bits of a number that fits in n bits give the number back. */
  lemma {:induction false} FromBitsOfLowBits(m: nat, n: nat)
    requires m < Pow2(n)
    ensures FromBits(LowBits(m, n)) == m
    decreases n
  {
    if n > 0 {
      var bs := LowBits(m, n);
      assert bs[1..] == LowBits(m / 2, n - 1);
      FromBitsOfLowBits(m / 2, n - 1);
    }
  }

  /** Reading n bits of the number built from n bits gives those bits back. */
  lemma {:induction false} LowBitsOfFromBits(bs: seq<bool>)
    ensures LowBits(FromBits(bs), |bs|) == bs
    decreases |bs|
  {
    if bs != [] {
      var m := FromBits(bs);
      assert m / 2 == FromBits(bs[1..]);
      LowBitsOfFromBits(bs[1..]);
      assert LowBits(m, |bs|) == [bs[0]] + bs[1..];
    }
  }

  // ---------------------------------------------------------------------
  // The enumeration

  /** The mask of a case of the right size is in range, and next() at that mask produces the case. */
  lemma CaseOfMaskOf(level: nat, c: Case)
    requires |c.ctorThrows| == level && |c.dtorThrows| == level
    ensures MaskOf(c) < Pow2(2 * level)
    ensures CaseOf(level, MaskOf(c)) == c
  {
    var bs := c.ctorThrows + c.dtorThrows;
    LowBitsOfFromBits(bs);
    LowBitsSplit(MaskOf(c), level, level);
    assert LowBits(MaskOf(c), level) == bs[..level];
    assert LowBits(ShiftRight(MaskOf(c), level), level) == bs[level..];
  }

  /** Each mask in range is the mask of the case next() produces from it. */
  lemma MaskOfCaseOf(level: nat, mask: nat)
    requires mask < Pow2(2 * level)
    ensures MaskOf(CaseOf(level, mask)) == mask
  {
    LowBitsSplit(mask, level, level);
    assert 2 * level == level + level;
    FromBitsOfLowBits(mask, 2 * level);
  }

  /**
   * The enumeration at a level covers every assignment of throwing
   * constructors and destructors to the level's links, each exactly once.
   */
  lemma CasesEnumerateEveryAssignmentOnce(level: nat)
    requires level <= 5
    ensures |Cases(level)| == Pow2(2 * level)
    ensures forall c: Case :: |c.ctorThrows| == level && |c.dtorThrows| == level ==> c in Cases(level)
    ensures forall i, j :: 0 <= i < j < |Cases(level)| ==> Cases(level)[i] != Cases(level)[j]
  {
    var cs := Cases(level);
    forall c: Case | |c.ctorThrows| == level && |c.dtorThrows| == level
      ensures c in cs
    {
      CaseOfMaskOf(level, c);
      assert cs[MaskOf(c)] == c;
    }
    forall i, j | 0 <= i < j < |cs|
      ensures cs[i] != cs[j]
    {
      MaskOfCaseOf(level, i);
      MaskOfCaseOf(level, j);
    }
  }
}

=== FILE: parameterized_auto_closeable.dfy ===
/**
 * ParameterizedAutoCloseable.wrap: a closeable whose close() applies a
 * destructor to a given object, optionally after applying a constructor to
 * the same object eagerly.
 */
module ParameterizedAutoCloseables {
  import opened Results
  import opened Throwables

  /** ConsumerWithException: accepts an object, or throws. */
  type Consumer<!T, M> = T -> Outcome<Throwable<M>>

  /** The lambda `() -> destructor.accept(object)` that wrap returns. */
  datatype Pending<!T, M> = Pending(target: T, destructor: Option<Consumer<T, M>>)

  /** A consumer invocation and the object it received. */
  datatype Invocation<T> = ConstructorOn(target: T) | DestructorOn(target: T)

  /** What wrap(object, ctor, dtor) did: the calls made, then the closeable or what escaped. */
  datatype Wrapping<!T, M> = Wrapping(calls: seq<Invocation<T>>, result: Result<Pending<T, M>, Throwable<M>>)

  /** What close() did. */
  datatype Closing<T, M> = Closing(calls: seq<Invocation<T>>, thrown: Option<Throwable<M>>)

  /** wrap(object, destructor): nothing runs until close(). */
  function Wrap<T, M>(target: T, destructor: Option<Consumer<T, M>>): (p: Pending<T, M>)
    ensures p.target == target && p.destructor == destructor
  {
    Pending(target, destructor)
  }

  /**
   * wrap(object, ctor, dtor): ctor runs once on the object before anything is
   * returned; if it throws (a null ctor throws NullPointerException), that
   * throwable escapes and no closeable exists to run dtor.
   */
  function WrapWith<T, M>(target: T, ctor: Option<Consumer<T, M>>, dtor: Option<Consumer<T, M>>): (r: Wrapping<T, M>)
    ensures ctor.None? ==> r == Wrapping([], Failure(NullPointerException()))
    ensures ctor.Some? ==> r.calls == [ConstructorOn(target)]
    ensures ctor.Some? ==> (r.result.Success? <==> ctor.value(target).Pass?)
    ensures ctor.Some? && r.result.Failure? ==> r.result.error == ctor.value(target).error
    ensures r.result.Success? ==> r.result.value == Wrap(target, dtor)
  {
    match ctor
    case None => Wrapping([], Failure(NullPointerException()))
    case Some(f) =>
      match f(target)
      case Pass => Wrapping([ConstructorOn(target)], Success(Wrap(target, dtor)))
      case Fail(x) => Wrapping([ConstructorOn(target)], Failure(x))
  }

  /**
   * close() of a wrapped closeable: the destructor gets the wrapped object and
   * what it throws escapes; a null destructor throws NullPointerException.
   */
  function Close<T, M>(p: Pending<T, M>): (r: Closing<T, M>)
    ensures p.destructor.None? ==> r == Closing([], Some(NullPointerException()))
    ensures p.destructor.Some? ==> r.calls == [DestructorOn(p.target)]
    ensures p.destructor.Some? ==> (r.thrown.None? <==> p.destructor.value(p.target).Pass?)
    ensures p.destructor.Some? && r.thrown.Some? ==> r.thrown.value == p.destructor.value(p.target).error
  {
    match p.destructor
    case None => Closing([], Some(NullPointerException()))
    case Some(f) =>
      match f(p.target)
      case Pass => Closing([DestructorOn(p.target)], None)
      case Fail(x) => Closing([DestructorOn(p.target)], Some(x))
  }

  /**
   * The eager form, when its constructor succeeds, then closed: the
   * constructor and then the destructor run, each exactly once and on the
   * same object, and close() behaves as the plain wrap of that object would.
   */
  lemma ConstructThenCloseSameObject<T, M>(target: T, ctor: Consumer<T, M>, dtor: Consumer<T, M>)
    requires ctor(target).Pass?
    ensures var w := WrapWith(target, Some(ctor), Some(dtor));
      && w.result.Success?
      && w.calls + Close(w.result.value).calls == [ConstructorOn(target), DestructorOn(target)]
      && Close(w.result.value) == Close(Wrap(target, Some(dtor)))
  {
  }

  /** If the eager constructor throws, the destructor is never invoked. */
  lemma ConstructorFailureNeverDestructs<T, M>(target: T, ctor: Option<Consumer<T, M>>, dtor: Option<Consumer<T, M>>)
    requires ctor.None? || ctor.value(target).Fail?
    ensures var w := WrapWith(target, ctor, dtor);
      && w.result.Failure?
      && DestructorOn(target) !in w.calls
  {
  }
}

=== FILE: results.dfy ===
/**
 * Carriers for what a callback can do: return a value, return nothing, or
 * throw. Java's nullable references become Option.
 */
module Results {

  /** A reference that may be null (None). */
  datatype Option<T> = None | Some(value: T)

  /** A callback that returns a value (Success) or throws (Failure). */
  datatype Result<R, E> = Success(value: R) | Failure(error: E)

  /** A callback that returns normally (Pass) or throws (Fail). */
  datatype Outcome<E> = Pass | Fail(error: E)
}

=== FILE: throwables.dfy ===
/**
 * Java throwables as values. A throwable has an identity (the message the
 * callbacks created it with, the NullPointerException of a call through null,
 * or the NullPointerException that Objects.requireNonNull raises with its
 * message) and the ordered list that Throwable.addSuppressed appends to.
 * Java mutates that list in place; here the updated throwable is returned.
 */
module Throwables {

  /**
   * What a throwable is: one created with a message, a call through a null
   * reference, or a failed Objects.requireNonNull with the message it was given.
   */
  datatype Cause<M> = Message(text: M) | NullPointer | NullCheck(message: string)

  datatype Throwable<M> = Throwable(cause: Cause<M>, suppressed: seq<Throwable<M>>)

  /** A freshly created exception with message m and nothing suppressed. */
  function Thrown<M>(m: M): Throwable<M>
  {
    Throwable(Message(m), [])
  }

  /** The exception thrown by a call through a null reference. */
  function NullPointerException<M>(): Throwable<M>
  {
    Throwable(NullPointer, [])
  }

  /** The exception thrown by Objects.requireNonNull(x, message) for a null x. */
  function RequireNonNullException<M>(message: string): Throwable<M>
  {
    Throwable(NullCheck(message), [])
  }

  /** t.addSuppressed(s): t keeps its identity and gains s at the end of its list. */
  function AddSuppressed<M>(t: Throwable<M>, s: Throwable<M>): Throwable<M>
  {
    Throwable(t.cause, t.suppressed + [s])
  }

  /**
   * t.addSuppressed(s) for every s in ss, one call at a time, in order:
   * the identity is kept, earlier entries are preserved and ss follows them.
   */
  function AddAllSuppressed<M>(t: Throwable<M>, ss: seq<Throwable<M>>): (r: Throwable<M>)
    ensures r.cause == t.cause
    ensures r.suppressed == t.suppressed + ss
    decreases |ss|
  {
    if ss == [] then t else AddAllSuppressed(AddSuppressed(t, ss[0]), ss[1..])
  }
}
